=== FILE: README.md ===
# Itinerary scheduler — a Dafny model

This project models the scheduling helpers of the itinerary screen of a group
activity-planning app (`screens/ItineraryScreen.js`). The owner of a lobby sets
a window of hours. The screen places the itinerary's activities one after
another inside that window. The owner may move an activity to another position;
the screen then recomputes the whole schedule and may show two warnings that
never stop the move.

Modules, one per helper (all pure functions over immutable records):

- `Wrappers`: `Option`, standing for JavaScript's `undefined`/`null`.
- `Decimal`: digit strings. `parseInt(s, 10)` on digits (`Value`) and the decimal spelling of an integer (`NatToString`, `IntToString`).
- `Clock`: `formatTime12Hour` (`FormatHour`). `Render` spells a 12-hour reading. `ReadClock` parses it back and `To24` turns it into a 24-hour value. `ReadClock` and `To24` are the inverse through which every time-producing contract is stated. The module also has `HasMeridiem`, the source's "contains AM or PM, case-insensitively" test.
- `TimeString`: `convertTimeTo12Hour`, with the pattern `^(\d{1,2}):(\d{2})(?::\d{2})?$` modelled as `MatchMilitary`. That matcher is proved to be the exact inverse of `Spell` on well-formed times.
- `OpenHours`: `isOpenDuringTimeframe` (`IsOpenDuring`), proved equal to an independent reference on non-empty windows. The reference asks whether some hour of the window is one of the venue's hours (`MeetsHours`).
- `Schedule`: `calculateTimes` (`CalculateTimes`, the walk `Walk` with its cursor). It is proved to agree with the cursor trace (`CursorAfter`) and with a prefix-sum description of each start (`ScheduleByPrefixSums`).
- `Reorder`: `moveActivity` (`MoveActivity`), the splice move (`Moved`) and `calculateNewTime` (`TentativeStart`).

An activity is a `Venue` plus three schedule fields. The venue is the part of the activity the scheduling logic reads and that the object spread `...activity` copies unchanged: id, name, category and hours. The spread also carries `location`, `address`, `image` and `round_number` through unchanged; the model leaves these out. The schedule fields are `duration`, `time` and `overflow`. Durations are integers. JavaScript's `d || 1` is `OrOne`, which turns 0 into 1. The screen's `Alert.alert` calls become the outcome `Rejected` and the two warning flags of `Committed`.

Behaviour of the source that the proofs bring out:

- A placed entry keeps the `overflow` flag it came in with, because only the N/A branch sets it. A reordered entry that now fits can still say `overflow: true` (`Reorder.StaleOverflowExample`). The flag is not displayed anywhere, so the model keeps this as written.
- The overnight branch of the hours check ORs three tests: the start falls in the evening part, the end falls in the morning part, and the third, `spansMidnight`. For every non-empty window whose opening and closing hours differ, this is exact: it says "open" exactly when some hour of the window is an opening hour (`OpenHours.OverlapIsExact`). The tests differ from that reference only for empty or inverted windows. There, daytime hours need both ends of the window open. Overnight hours within 0–23 need only one: the start hour, if it is before 24, or the hour before the end, if the end is after 0 (`OpenHours.IsOpenDuring`).
- Hours that open and close at the same hour (for example 0 to 0) count as open only for a window that strictly straddles that hour (`OpenHours.SameHourExample`).
- `calculateNewTime` advances by raw durations, with no clamp to 1–3 and no "window used up" check. It gives the same start as the committed schedule when every duration is between 0 and 3 and the window is not inverted (`Reorder.TentativeIsCursor`). Otherwise the warnings can speak of a slot the schedule does not use (`Reorder.MisplacedWarningExample`).
- The "Cannot Move Activity" branch is reachable only through a negative duration (`Reorder.MoveActivity`). A displayed schedule can carry one, because an N/A entry keeps its raw duration (`Reorder.RejectedMoveExample`).

## Model

| member | source | states |
|---|---|---|
| `Clock.FormatHour` | screens/ItineraryScreen.js:25-33 | A missing hour gives "12:00 PM". Every result carries AM/PM. For an hour h in 0–23 the result parses back as a whole-hour reading on the 1–12 dial whose 24-hour value is h. By `Clock.ShowsTimeUnique`, only one string does, spelled without padding. |
| `Clock.HourOnClockRoundTrip` | screens/ItineraryScreen.js:29-31 | Every hour 0–23 lands on the dial 1–12, is PM exactly from 12 on, and converts back to itself. |
| `Clock.DialRoundTrip` | screens/ItineraryScreen.js:29-31 | Conversely, every whole-hour dial reading is the reading of its 24-hour value, and that value is in 0–23. |
| `Clock.ReadRender` | screens/ItineraryScreen.js:32 | Parsing a rendered `H:MM AM/PM` reading gives the reading back (the hour's decimal spelling read back included). |
| `Clock.RenderRead` | screens/ItineraryScreen.js:32 | Conversely, a string that parses is exactly the rendering of what it parses to. The parser accepts only unpadded hour digits, as the template literal writes them. |
| `Clock.DialUnique` | screens/ItineraryScreen.js:29-31 | Two dial readings with the same 24-hour value and minutes are equal. |
| `Clock.ShowsTimeUnique` | screens/ItineraryScreen.js:32 | Two strings that show the same 24-hour time with the same minutes are the same string. So `ShowsTime` and `ShowsHour` fix the exact output text. |
| `Clock.PaddedHourExample` | screens/ItineraryScreen.js:32 | "01:00 PM" does not parse and does not show 13. |
| `Clock.FormatHourExamples` | screens/ItineraryScreen.js:25-33 | 0 gives "12:00 AM", 12 gives "12:00 PM", 13 gives "1:00 PM", 15 gives "3:00 PM", and a missing hour gives "12:00 PM". |
| `Clock.RenderHasMeridiem` | screens/ItineraryScreen.js:54 | Every rendered reading contains AM or PM. |
| `Decimal.ValueOfNatToString` | screens/ItineraryScreen.js:49 | `parseInt` of the decimal spelling of n is n. |
| `Decimal.NatToStringOfValue` | screens/ItineraryScreen.js:32 | The decimal spelling of the value of a digit string without leading zeros is that string, so each number has exactly one such spelling. |
| `TimeString.MatchMilitary` | screens/ItineraryScreen.js:47 | A match has 1–2 hour digits, 2 minute digits and optionally 2 second digits, and spells the input exactly. |
| `TimeString.MatchSpell` | screens/ItineraryScreen.js:47 | Every string of that shape is matched, with its own groups, so the matcher accepts exactly the pattern's language. |
| `TimeString.SpellHasNoMeridiem` | screens/ItineraryScreen.js:42-47 | A military time never contains AM/PM, so the pass-through branch cannot steal it. |
| `TimeString.ConvertTimeTo12Hour` | screens/ItineraryScreen.js:36-60 | A missing or non-string time gives the default. AM/PM text, in any case, is returned unchanged. A military time with hour ≤ 23 becomes the (unique, by `Clock.ShowsTimeUnique`) reading of that hour with the minutes copied and the seconds dropped. Any other input gives "12:00 PM". Every result carries AM/PM. |
| `TimeString.ConvertMilitary` | screens/ItineraryScreen.js:47-59 | For `H:MM` or `H:MM:SS`, hour ≤ 23 gives the 12-hour reading of that hour (PM exactly from 12 on) with the minutes copied. Hour > 23 gives the default. |
| `TimeString.ConvertIdempotent` | screens/ItineraryScreen.js:36-60 | Normalising twice is normalising once. |
| `TimeString.ConvertKeepsExample` | screens/ItineraryScreen.js:42-44 | "9:30 pm" is kept as it is. |
| `TimeString.ConvertLateHourExample` | screens/ItineraryScreen.js:51-59 | "24:00" gives "12:00 PM". |
| `TimeString.ConvertDefaultExamples` | screens/ItineraryScreen.js:37-39 | "" and "noon" give "12:00 PM". |
| `OpenHours.IsOpenDuring` | screens/ItineraryScreen.js:63-102 | Missing window, day, hours, opening or closing hour means open. A listed set of days without the day means closed. Otherwise, for a non-empty window and distinct hours, the result is open iff some hour of the window is an opening hour, overnight hours included. With equal hours the result is open iff the window strictly straddles that hour. For an empty or inverted window with daytime hours (open < close), it is open iff both the start hour and the hour before the end are open hours. With overnight hours within 0–23, it is open iff the start hour is open (before 24) or the hour before the end is open (end after 0). |
| `OpenHours.OverlapIsExact` | screens/ItineraryScreen.js:91-101 | Both branches of the overlap test, including the overnight branch's `spansMidnight` disjunct, are equivalent to "some hour of the window is open" for non-empty windows with distinct hours. |
| `OpenHours.OvernightExamples` | screens/ItineraryScreen.js:84-97 | Hours 18–2: window 23–24 is open and window 10–11 is closed. The empty window 20–19 is "open" although no hour of it is. A listed set of days without the day is closed. |
| `OpenHours.SameHourExample` | screens/ItineraryScreen.js:98-101 | Hours 0–0 with window 12–14 are closed. Hours 13–13 with window 12–14 are open. |
| `Schedule.Clamp` | screens/ItineraryScreen.js:184-185 | The clamped value is within the bounds, equals the input when the input already is, is the lower bound for inputs below it and the upper bound for inputs above it. |
| `Schedule.SlotLength` | screens/ItineraryScreen.js:193 | An activity's slot is 1–3 hours: its duration when that is 1–3, 3 hours for longer durations, and 1 hour for zero or negative ones. |
| `Schedule.Walk` | screens/ItineraryScreen.js:187-198 | Same length, venues and order. From the cursor at the window's end on, every entry is N/A and overflow. After an N/A entry every entry is N/A and overflow. A placed entry has a 1–3 hour slot and keeps its incoming overflow flag. An N/A entry keeps its raw duration. |
| `Schedule.CalculateTimes` | screens/ItineraryScreen.js:179-199 | Empty in gives empty out, with the same length, order and venues. If the clamped start is not before the clamped end, every entry is N/A and overflow. N/A and overflow, once reached, hold to the end. |
| `Schedule.WalkAt` | screens/ItineraryScreen.js:187-197 | Entry i is activity i placed at the cursor reached after the activities before it. |
| `Schedule.PlacedAtCursor` | screens/ItineraryScreen.js:184-197 | The same for the clamped window: entry i is placed at `Cursor(w, acts, i)`. |
| `Schedule.CursorBounds` | screens/ItineraryScreen.js:184-195 | The cursor starts at the clamped start and never decreases. With a non-empty window it never exceeds the clamped end. With an empty window it never moves. |
| `Schedule.CursorClosedForm` | screens/ItineraryScreen.js:184-195 | The cursor after k activities is min(end, start + sum of their slot lengths). |
| `Schedule.CursorByPrefixSums` | screens/ItineraryScreen.js:184-195 | The cursor at activity i is the clamped start plus the earlier slots while that is before the clamped end, and at or past the end otherwise. |
| `Schedule.ScheduleByPrefixSums` | screens/ItineraryScreen.js:184-197 | Activity i shows the hour "clamped start + earlier slots" when that is before the clamped end, keeping its overflow flag. Otherwise it is N/A and overflow. |
| `Schedule.WalkIdempotent` | screens/ItineraryScreen.js:187-198 | Walking an already walked list from the same cursor changes nothing. |
| `Schedule.CalculateTimesIdempotent` | screens/ItineraryScreen.js:179-199 | Recomputing a computed schedule for the same window gives the same schedule. |
| `Schedule.FreshOverflowIsNotPlaced` | screens/ItineraryScreen.js:187-197 | On a list with no overflow flags yet, an entry is overflow exactly when it shows N/A. |
| `Schedule.ThreeActivitiesExample` | screens/ItineraryScreen.js:184-197 | Window 12–18 with durations 1, 2, 1 gives "12:00 PM", "1:00 PM" and "3:00 PM", with no overflow. |
| `Schedule.OverflowExample` | screens/ItineraryScreen.js:189-197 | Window 12–13 with durations 2, 2 gives "12:00 PM" (not overflow), then "N/A" with overflow. |
| `Reorder.Moved` | screens/ItineraryScreen.js:218-220 | Same length. Index i of the result holds the item from `Origin(from, to, i)`: the moved item lands at `to` and the items in between shift by one. |
| `Reorder.MovedIsPermutation` | screens/ItineraryScreen.js:218-220 | The moved list is a permutation of the old one. |
| `Reorder.MovedKeepsDurationSign` | screens/ItineraryScreen.js:218-220 | A move keeps every duration non-negative when all were non-negative before. |
| `Reorder.MoveBack` | screens/ItineraryScreen.js:218-220 | Moving the item back from `to` to `from` restores the list. |
| `Reorder.TentativeFrom` | screens/ItineraryScreen.js:227-233 | The walk never ends later than max(start, end). It never goes below zero when the start, end and walked durations are non-negative. |
| `Reorder.TentativeStart` | screens/ItineraryScreen.js:223-234 | `calculateNewTime` is never later than 23, and is never negative unless a duration is negative. |
| `Reorder.TentativeIsCursor` | screens/ItineraryScreen.js:223-234 | With durations 0–3 and a window that is not inverted, `calculateNewTime` gives exactly the cursor `calculateTimes` reaches. |
| `Reorder.MoveActivity` | screens/ItineraryScreen.js:210-278 | The request is ignored exactly when the caller is not the owner, an index is outside [0, n), or from = to. An allowed move is rejected exactly when the tentative start is negative. It always commits when all durations are non-negative. A commit has the same length with the moved venue at `to` and every venue at its `Origin`, and it is the full `calculateTimes` of the moved list. |
| `Reorder.WarningsAreAdvisory` | screens/ItineraryScreen.js:252-277 | The weekday changes neither whether a move commits nor the state it leaves. |
| `Reorder.WarningsMeaning` | screens/ItineraryScreen.js:236-274 | For every committed move, whatever the durations: the hours warning is never raised without a known day and known hours. It is raised when the listed days leave out the day. With equal opening and closing hours it is raised exactly when the tentative visit does not straddle that hour. With distinct hours and a moved activity of non-negative duration, it is raised exactly when no hour of the visit is an opening hour. The window warning is raised exactly when the visit would end after the configured, unclamped end hour. |
| `Reorder.WarnedSlotIsCommittedSlot` | screens/ItineraryScreen.js:236-250 | With durations 0–3 and a window that is not inverted, an allowed move commits. The tentative start it warns about is the hour the new schedule shows for the moved activity, or the entry is N/A when the window is used up there. |
| `Reorder.NegativeDurationSchedule` | screens/ItineraryScreen.js:187-197 | The schedule of window 12–13 with durations 2 and -30 leaves the second entry N/A with its raw duration of -30. |
| `Reorder.RejectedMoveExample` | screens/ItineraryScreen.js:236-247 | In that schedule, moving the first entry behind the N/A one is rejected (tentative start -18). |
| `Reorder.NegativeCommitExample` | screens/ItineraryScreen.js:236-277 | In that schedule, moving the N/A entry to the front commits without the window warning (the visit would end at -18). |
| `Reorder.FilledWindowSchedule` | screens/ItineraryScreen.js:187-197 | The schedule of window 12–14 with durations 2 and -2 leaves the second entry N/A with its raw duration of -2. |
| `Reorder.MisplacedWarningExample` | screens/ItineraryScreen.js:223-250 | In that schedule, moving the first entry behind the N/A one commits with a tentative start of 10, the hour the warnings are about. The new schedule shows hour 13 for that entry. |
| `Reorder.StaleOverflowExample` | screens/ItineraryScreen.js:187-197 | Window 12–13 with durations 2, 2: moving the overflowed second activity to the front gives it "12:00 PM" while it still carries overflow. The window warning is raised. |

## Left out

- The React component is not modelled: hooks, state, rendering, styles and navigation (`ItineraryScreen.js:104-176, 280-575`). `moveActivity` is a pure function from list, indices, owner flag, window and weekday to an outcome. The state after a request is `NextState`.
- The fetch through `resultAPI.getItinerary`, its error messages, and the backend field mapping with its `||` fallbacks (`:116-176`) are not modelled. They are a network call and JavaScript truthiness plumbing.
- `getDayOfWeek` (`:12-22`) depends on JavaScript `Date` calendar rules. The weekday is an `Option<int>` input. A date such as "Today" gives `NaN` in the source. That behaves like a number no days list contains, so any `Some(k)` with k outside 0–6 stands for it.
- The window defaults `startHour || 12` and `endHour || 18` (`:111-112`) are left out. The window is passed as explicit integers.
- `Alert.alert` and `console.log` are left out. Alerts become the `Rejected` outcome and the two warning flags. The message texts, including `formatTime12Hour` of the raw end hour, are not modelled.
- Fractional hours, `Math.floor` and `NaN` are not modelled: hours and durations are integers, so the `isNaN` guards (`:26`, `:51`, `:240`) can never fire.
- `toUpperCase` is modelled on ASCII letters only. No other character upper-cases to text containing AM or PM, so the AM/PM test is unaffected.
- Values of the wrong JavaScript type are not modelled. A non-array `days` is `None`, matching the source's skipped day filter. A `null` opening or closing hour, which JavaScript would compare as 0, has no counterpart.
- OpenHours.IsOpenDuring: for an empty or inverted window with overnight hours outside 0–23, states nothing beyond the day filter. Opening hours outside 0–23 are not hours of the day, and the source's tests then depend on comparisons with 0 and 24 that have no meaning as hours.
- Clock.FormatHour: states nothing about hours outside 0–23 beyond the AM/PM marker. The scheduler only formats hours in 0–23; other hours reach it only through the unmodelled alert texts (`:268`) and the header's window line (`:328`), both of which format the raw, unclamped window hours.
- The rest of the app, including `constants/activityCategories.js`, is left out. It holds presentation, navigation and lookup tables, with no scheduling logic.

=== FILE: clock.dfy ===
/** Twelve-hour clock readings: `formatTime12Hour` (screens/ItineraryScreen.js)
    and the reading of its output back into a 24-hour value. */
module Clock {
  import opened Wrappers
  import opened Decimal

  datatype Meridiem = AM | PM

  /** A reading on a 12-hour clock: the hour, the two minute characters and AM or PM. */
  datatype ClockTime = ClockTime(hour: int, minutes: string, meridiem: Meridiem)

  /** What the screen shows when it has no usable time. */
  const DefaultTime: string := "12:00 PM"

  function MeridiemText(m: Meridiem): string {
    match m
    case AM => "AM"
    case PM => "PM"
  }

  /** The template literal `${hour}:${minutes} ${ampm}`. */
  function Render(t: ClockTime): string {
    IntToString(t.hour) + ":" + t.minutes + " " + MeridiemText(t.meridiem)
  }

  /** Parses a string of the shape `H:MM AM` (hour digits without leading
      zeros, any two minute characters, `AM` or `PM`): the inverse of `Render`. */
  function ReadClock(s: string): Option<ClockTime> {
    if |s| < 7 then None
    else
      var n := |s|;
      var digits := s[..n - 6];
      var suffix := s[n - 2..];
      if Canonical(digits) && s[n - 6] == ':' && s[n - 3] == ' ' && (suffix == "AM" || suffix == "PM")
      then Some(ClockTime(Value(digits), s[n - 5..n - 3], if suffix == "AM" then AM else PM))
      else None
  }

  /** A reading whose hour is on the dial, 1 to 12. */
  predicate OnDial(t: ClockTime) {
    1 <= t.hour <= 12
  }

  /** The 24-hour value of a reading: 12 AM is midnight, 12 PM is noon. */
  function To24(t: ClockTime): int {
    match t.meridiem
    case AM => if t.hour == 12 then 0 else t.hour
    case PM => if t.hour == 12 then 12 else t.hour + 12
  }

  /** `s` is a reading on the dial of the 24-hour value `h` with minutes `minutes`. */
  predicate ShowsTime(s: string, h: int, minutes: string) {
    && ReadClock(s).Some?
    && OnDial(ReadClock(s).value)
    && ReadClock(s).value.minutes == minutes
    && To24(ReadClock(s).value) == h
  }

  /** `s` is a whole-hour reading of the 24-hour value `h`. */
  predicate ShowsHour(s: string, h: int) {
    ShowsTime(s, h, "00")
  }

  /** JavaScript's `a % b` for a positive divisor: truncates toward zero, so the
      remainder takes the sign of `a`. */
  function JsRem(a: int, b: int): (r: int)
    requires b > 0
    ensures -b < r < b
    ensures a >= 0 ==> r >= 0
    ensures a < 0 ==> r <= 0
  {
    if a >= 0 then a % b else -((-a) % b)
  }

  /** The 12-hour reading of an integer hour (`h % 12 === 0 ? 12 : h % 12`,
      PM from 12 on). */
  function HourOnClock(h: int): ClockTime {
    var m := JsRem(h, 12);
    ClockTime(if m == 0 then 12 else m, "00", if h >= 12 then PM else AM)
  }

  /** `formatTime12Hour`: a missing hour gives the default; an hour of the day
      gives a string that reads back as that hour. */
  function FormatHour(hour: Option<int>): (r: string)
    ensures HasMeridiem(r)
    ensures hour.None? ==> r == DefaultTime
    ensures hour.Some? && 0 <= hour.value < 24 ==> ShowsHour(r, hour.value)
  {
    match hour
    case None =>
      DefaultHasMeridiem();
      DefaultTime
    case Some(h) =>
      var t := HourOnClock(h);
      RenderHasMeridiem(t);
      if 0 <= h < 24 then
        HourOnClockRoundTrip(h);
        ReadRender(t);
        Render(t)
      else
        Render(t)
  }

  /** Every hour of the day lands on the dial and converts back to itself. */
  lemma HourOnClockRoundTrip(h: int)
    requires 0 <= h < 24
    ensures OnDial(HourOnClock(h))
    ensures HourOnClock(h).meridiem == PM <==> h >= 12
    ensures To24(HourOnClock(h)) == h
  {
  }

  /** Every whole-hour reading on the dial is the reading of its 24-hour value. */
  lemma DialRoundTrip(t: ClockTime)
    requires OnDial(t) && t.minutes == "00"
    ensures 0 <= To24(t) < 24
    ensures HourOnClock(To24(t)) == t
  {
  }

  /** Parsing a rendered reading gives the reading back. */
  lemma ReadRender(t: ClockTime)
    requires t.hour >= 0 && |t.minutes| == 2
    ensures ReadClock(Render(t)) == Some(t)
  {
    var digits := NatToString(t.hour);
    var s := Render(t);
    var n := |s|;
    assert s == digits + ":" + t.minutes + " " + MeridiemText(t.meridiem);
    assert n == |digits| + 6;
    assert s[..n - 6] == digits;
    assert s[n - 6] == ':';
    assert s[n - 5..n - 3] == t.minutes;
    assert s[n - 3] == ' ';
    assert s[n - 2..] == MeridiemText(t.meridiem);
    ValueOfNatToString(t.hour);
  }

  /** Conversely, a string that parses is exactly the rendering of what it
      parses to: `ReadClock` accepts no other spelling of a reading. */
  lemma RenderRead(s: string, t: ClockTime)
    requires ReadClock(s) == Some(t)
    ensures Render(t) == s
  {
    var n := |s|;
    var digits := s[..n - 6];
    NatToStringOfValue(digits);
    assert IntToString(t.hour) == digits;
    assert s == digits + ":" + s[n - 5..n - 3] + " " + s[n - 2..];
  }

  /** A zero-padded hour is not a spelling the screen produces, so it does not
      parse: "01:00 PM" shows no time at all. */
  lemma PaddedHourExample()
    ensures ReadClock("01:00 PM") == None
    ensures !ShowsHour("01:00 PM", 13)
  {
    assert "01:00 PM"[..2] == "01";
  }

  /** A reading is determined by its 24-hour value and its minutes. */
  lemma DialUnique(t1: ClockTime, t2: ClockTime)
    requires OnDial(t1) && OnDial(t2)
    requires t1.minutes == t2.minutes && To24(t1) == To24(t2)
    ensures t1 == t2
  {
  }

  /** Two strings that show the same time are the same string: `ShowsTime`
      pins down the exact text, digits and spacing included. */
  lemma ShowsTimeUnique(s1: string, s2: string, h: int, minutes: string)
    requires ShowsTime(s1, h, minutes) && ShowsTime(s2, h, minutes)
    ensures s1 == s2
  {
    var t1, t2 := ReadClock(s1).value, ReadClock(s2).value;
    DialUnique(t1, t2);
    RenderRead(s1, t1);
    RenderRead(s2, t2);
  }

  /** The worked readings: midnight, noon and one in the afternoon. */
  lemma FormatHourExamples()
    ensures FormatHour(Some(0)) == "12:00 AM"
    ensures FormatHour(Some(12)) == "12:00 PM"
    ensures FormatHour(Some(13)) == "1:00 PM"
    ensures FormatHour(Some(15)) == "3:00 PM"
    ensures FormatHour(None) == "12:00 PM"
  {
    assert NatToString(1) == "1";
    assert NatToString(12) == "12" by {
      assert NatToString(12) == NatToString(1) + [DigitChar(2)];
    }
    assert HourOnClock(0) == ClockTime(12, "00", AM);
    assert HourOnClock(12) == ClockTime(12, "00", PM);
    assert HourOnClock(13) == ClockTime(1, "00", PM);
    assert HourOnClock(15) == ClockTime(3, "00", PM);
    assert NatToString(3) == "3";
    assert Render(ClockTime(12, "00", AM)) == "12:00 AM";
    assert Render(ClockTime(12, "00", PM)) == "12:00 PM";
    assert Render(ClockTime(1, "00", PM)) == "1:00 PM";
    assert Render(ClockTime(3, "00", PM)) == "3:00 PM";
  }

  // ---- `toUpperCase().includes('AM') || toUpperCase().includes('PM')`

  /** `toUpperCase` on one character; letters outside ASCII are left unchanged. */
  function Upper(c: char): char {
    if 'a' <= c <= 'z' then ((c as int) - 32) as char else c
  }

  function UpperCase(s: string): (u: string)
    ensures |u| == |s|
    ensures forall i | 0 <= i < |s| :: u[i] == Upper(s[i])
  {
    seq(|s|, i requires 0 <= i < |s| => Upper(s[i]))
  }

  /** `w` occurs in `s` starting at index `i`. */
  predicate OccursAt(s: string, w: string, i: int)
    requires 0 <= i <= |s| - |w|
  {
    s[i..i + |w|] == w
  }

  /** `s.includes(w)` */
  predicate Includes(s: string, w: string) {
    exists i | 0 <= i <= |s| - |w| :: OccursAt(s, w, i)
  }

  /** The string already carries an AM/PM marker, in any letter case. */
  predicate HasMeridiem(s: string) {
    Includes(UpperCase(s), "AM") || Includes(UpperCase(s), "PM")
  }

  lemma DefaultHasMeridiem()
    ensures HasMeridiem(DefaultTime)
  {
    assert OccursAt(UpperCase(DefaultTime), "PM", 6);
  }

  lemma RenderHasMeridiem(t: ClockTime)
    ensures HasMeridiem(Render(t))
  {
    var s := Render(t);
    var u := UpperCase(s);
    var n := |s|;
    assert s[n - 2..] == MeridiemText(t.meridiem);
    assert u[n - 2..n] == MeridiemText(t.meridiem);
    assert OccursAt(u, MeridiemText(t.meridiem), n - 2);
  }
}

=== FILE: decimal.dfy ===
/** Decimal digit strings: `parseInt(s, 10)` on a digit string and the
    decimal rendering of an integer in a template literal. */
module Decimal {

  predicate IsDigit(c: char) {
    '0' <= c <= '9'
  }

  predicate AllDigits(s: string) {
    forall i | 0 <= i < |s| :: IsDigit(s[i])
  }

  function DigitValue(c: char): (d: nat)
    requires IsDigit(c)
    ensures d < 10
  {
    (c as int) - ('0' as int)
  }

  function DigitChar(d: nat): (c: char)
    requires d < 10
    ensures IsDigit(c) && DigitValue(c) == d
  {
    (('0' as int) + d) as char
  }

  /** The number a string of decimal digits denotes (`parseInt(s, 10)`). */
  function Value(s: string): nat
    requires AllDigits(s)
    decreases |s|
  {
    if |s| == 0 then 0 else Value(s[..|s| - 1]) * 10 + DigitValue(s[|s| - 1])
  }

  /** The shortest decimal spelling of a natural number. */
  function NatToString(n: nat): (s: string)
    ensures |s| > 0 && AllDigits(s)
    ensures n > 0 ==> s[0] != '0'
    ensures Canonical(s)
    decreases n
  {
    if n < 10 then [DigitChar(n)] else NatToString(n / 10) + [DigitChar(n % 10)]
  }

  /** `String(n)` for an integer `n`. */
  function IntToString(n: int): (s: string)
    ensures n >= 0 ==> s == NatToString(n)
    ensures n < 0 ==> |s| > 1 && s[0] == '-'
  {
    if n < 0 then "-" + NatToString(-n) else NatToString(n)
  }

  /** A digit string without leading zeros: `NatToString`'s form. */
  predicate Canonical(s: string) {
    |s| > 0 && AllDigits(s) && (|s| == 1 || s[0] != '0')
  }

  /** A digit string that does not start with `0` denotes a positive number. */
  lemma {:induction false} ValuePositive(s: string)
    requires |s| > 0 && AllDigits(s) && s[0] != '0'
    ensures Value(s) > 0
    decreases |s|
  {
    if |s| > 1 {
      ValuePositive(s[..|s| - 1]);
    }
  }

  /** Spelling the value of a canonical digit string gives the string back, so
      every number has exactly one canonical spelling. */
  lemma {:induction false} NatToStringOfValue(s: string)
    requires Canonical(s)
    ensures NatToString(Value(s)) == s
    decreases |s|
  {
    var last := s[|s| - 1];
    if |s| == 1 {
      assert DigitChar(DigitValue(last)) == last;
      assert s == [last];
    } else {
      var p := s[..|s| - 1];
      assert p[0] == s[0];
      ValuePositive(p);
      NatToStringOfValue(p);
      var n := Value(s);
      assert n == Value(p) * 10 + DigitValue(last);
      assert n / 10 == Value(p) && n % 10 == DigitValue(last);
      assert DigitChar(DigitValue(last)) == last;
      assert s == p + [last];
    }
  }

  /** Reading back a spelled number gives the number. */
  lemma {:induction false} ValueOfNatToString(n: nat)
    ensures Value(NatToString(n)) == n
    decreases n
  {
    var s := NatToString(n);
    if n >= 10 {
      ValueOfNatToString(n / 10);
      assert s[..|s| - 1] == NatToString(n / 10);
    }
  }
}

=== FILE: open_hours.dfy ===
/** `isOpenDuringTimeframe` (screens/ItineraryScreen.js): whether a venue's
    business hours allow a visit during a window of hours. */
module OpenHours {
  import opened Wrappers

  /** A venue's business hours: the opening and closing hour and, optionally,
      the weekdays it opens on (0 = Sunday ... 6 = Saturday). */
  datatype Hours = Hours(open: Option<int>, close: Option<int>, days: Option<seq<int>>)

  /** The venue is open during hour `t`. A closing hour before the opening
      hour means the hours run past midnight (a bar open 18 to 2). */
  predicate OpenAt(open: int, close: int, t: int) {
    if close >= open then open <= t < close else open <= t || t < close
  }

  /** Some hour of the window `[start, end)` falls within the venue's hours. */
  predicate MeetsHours(start: int, end: int, open: int, close: int) {
    exists t :: start <= t < end && OpenAt(open, close, t)
  }

  /** The source's overlap test, applied once the day of the week has passed. */
  predicate OverlapTest(start: int, end: int, open: int, close: int) {
    if close < open then
      var overlapsFirstPeriod := start >= open && start < 24;
      var overlapsSecondPeriod := end > 0 && end <= close;
      var spansMidnight := start < close || end > open;
      overlapsFirstPeriod || overlapsSecondPeriod || spansMidnight
    else
      start < close && end > open
  }

  /** Everything the check needs is known: the window, the day and both hours. */
  predicate Decisive(hours: Option<Hours>, start: Option<int>, end: Option<int>, day: Option<int>) {
    && start.Some? && end.Some? && day.Some?
    && hours.Some? && hours.value.open.Some? && hours.value.close.Some?
  }

  /** The venue lists its weekdays and the day is not among them. */
  predicate DayExcluded(hours: Hours, day: int) {
    hours.days.Some? && day !in hours.days.value
  }

  /** `isOpenDuringTimeframe`. With anything missing it assumes the venue is
      open; a listed set of weekdays without the day closes it; otherwise, for a
      non-empty window, it is open exactly when some hour of the window is one
      of the venue's hours, overnight hours included. An empty or inverted
      window (end at or before start) is judged by its two ends: with daytime
      hours both the start hour and the hour before the end must be open, with
      overnight hours either one suffices. */
  function IsOpenDuring(hours: Option<Hours>, start: Option<int>, end: Option<int>, day: Option<int>): (r: bool)
    ensures !Decisive(hours, start, end, day) ==> r
    ensures Decisive(hours, start, end, day) && DayExcluded(hours.value, day.value) ==> !r
    ensures Decisive(hours, start, end, day) && !DayExcluded(hours.value, day.value) &&
            start.value < end.value && hours.value.open.value != hours.value.close.value ==>
      (r <==> MeetsHours(start.value, end.value, hours.value.open.value, hours.value.close.value))
    ensures Decisive(hours, start, end, day) && !DayExcluded(hours.value, day.value) &&
            hours.value.open.value == hours.value.close.value ==>
      (r <==> start.value < hours.value.open.value < end.value)
    ensures Decisive(hours, start, end, day) && !DayExcluded(hours.value, day.value) &&
            end.value <= start.value && hours.value.open.value < hours.value.close.value ==>
      (r <==> OpenAt(hours.value.open.value, hours.value.close.value, start.value) &&
              OpenAt(hours.value.open.value, hours.value.close.value, end.value - 1))
    ensures Decisive(hours, start, end, day) && !DayExcluded(hours.value, day.value) &&
            end.value <= start.value && 0 <= hours.value.close.value < hours.value.open.value <= 23 ==>
      (r <==> (OpenAt(hours.value.open.value, hours.value.close.value, start.value) && start.value < 24) ||
              (OpenAt(hours.value.open.value, hours.value.close.value, end.value - 1) && end.value > 0))
  {
    if start.None? || end.None? || day.None? then true
    else if hours.None? then true
    else if hours.value.open.None? || hours.value.close.None? then true
    else if DayExcluded(hours.value, day.value) then false
    else
      var open, close := hours.value.open.value, hours.value.close.value;
      OverlapIsExact(start.value, end.value, open, close);
      OverlapTest(start.value, end.value, open, close)
  }

  /** For a non-empty window and distinct opening and closing hours the
      overlap test says exactly whether some hour of the window is an open
      hour; in the overnight case that includes its third disjunct,
      `spansMidnight`. */
  lemma OverlapIsExact(start: int, end: int, open: int, close: int)
    ensures start < end && open != close ==>
      (OverlapTest(start, end, open, close) <==> MeetsHours(start, end, open, close))
  {
    if start < end && open != close && OverlapTest(start, end, open, close) {
      if close >= open {
        var t := if start < open then open else start;
        assert OpenAt(open, close, t);
      } else if end > open || (start >= open && start < 24) {
        assert OpenAt(open, close, end - 1);
      } else {
        assert OpenAt(open, close, start);
      }
    }
    if start < end && open != close && MeetsHours(start, end, open, close) {
      var t :| start <= t < end && OpenAt(open, close, t);
    }
  }

  /** A bar open 18 to 2 is open for a visit from 23 to 24, closed for one from
      10 to 11, and, the window being empty, "open" for one from 20 back to 19;
      on a day it does not list it is closed. */
  lemma OvernightExamples()
    ensures IsOpenDuring(Some(Hours(Some(18), Some(2), None)), Some(23), Some(24), Some(5))
    ensures !IsOpenDuring(Some(Hours(Some(18), Some(2), None)), Some(10), Some(11), Some(5))
    ensures IsOpenDuring(Some(Hours(Some(18), Some(2), None)), Some(20), Some(19), Some(5))
    ensures !MeetsHours(20, 19, 18, 2)
    ensures !IsOpenDuring(Some(Hours(Some(18), Some(2), Some([5, 6]))), Some(23), Some(24), Some(0))
  {
  }

  /** Hours that open and close at the same hour (0 to 0) do not read as
      round-the-clock: a window from 12 to 14 draws a closed verdict. */
  lemma SameHourExample()
    ensures !IsOpenDuring(Some(Hours(Some(0), Some(0), None)), Some(12), Some(14), Some(3))
    ensures IsOpenDuring(Some(Hours(Some(13), Some(13), None)), Some(12), Some(14), Some(3))
  {
  }
}

=== FILE: reorder.dfy ===
/** `moveActivity` (screens/ItineraryScreen.js): the owner moves one activity
    to another position, the start it would get there is checked, two
    advisory warnings are raised, and the whole schedule is recomputed. */
module Reorder {
  import opened Wrappers
  import opened OpenHours
  import opened Schedule

  /** The index, in the list before the move, of the item that ends up at
      index `i` when the item at `from` moves to `to`: the moved item lands at
      `to` and the items in between shift by one towards `from`. */
  function Origin(from: int, to: int, i: int): int {
    if i == to then from
    else if from < to && from <= i < to then i + 1
    else if to < from && to < i <= from then i - 1
    else i
  }

  /** `newActivities.splice(from, 1)` followed by `splice(to, 0, moved)`. */
  function Moved<T>(s: seq<T>, from: int, to: int): (r: seq<T>)
    requires 0 <= from < |s| && 0 <= to < |s|
    ensures |r| == |s|
    ensures forall i | 0 <= i < |r| :: 0 <= Origin(from, to, i) < |s| && r[i] == s[Origin(from, to, i)]
  {
    var rest := s[..from] + s[from + 1..];
    var r := rest[..to] + [s[from]] + rest[to..];
    forall i | 0 <= i < |r|
      ensures 0 <= Origin(from, to, i) < |s| && r[i] == s[Origin(from, to, i)]
    {
      if i < to {
        assert r[i] == rest[i];
      } else if i > to {
        assert r[i] == rest[i - 1];
      }
    }
    r
  }

  /** A move rearranges the list: the same items, each as often as before. */
  lemma MovedIsPermutation<T>(s: seq<T>, from: int, to: int)
    requires 0 <= from < |s| && 0 <= to < |s|
    ensures multiset(Moved(s, from, to)) == multiset(s)
  {
    var rest := s[..from] + s[from + 1..];
    var x := s[from];
    var r := Moved(s, from, to);
    assert s == s[..from] + [x] + s[from + 1..];
    assert rest == rest[..to] + rest[to..];
    assert r == rest[..to] + [x] + rest[to..];
    calc {
      multiset(r);
      multiset(rest[..to]) + multiset([x]) + multiset(rest[to..]);
      multiset(rest[..to]) + multiset(rest[to..]) + multiset([x]);
      multiset(rest) + multiset([x]);
      multiset(s[..from]) + multiset(s[from + 1..]) + multiset([x]);
      multiset(s[..from]) + multiset([x]) + multiset(s[from + 1..]);
      multiset(s);
    }
  }

  /** Moving the item back where it came from restores the list. */
  lemma MoveBack<T>(s: seq<T>, from: int, to: int)
    requires 0 <= from < |s| && 0 <= to < |s|
    ensures Moved(Moved(s, from, to), to, from) == s
  {
    var r := Moved(s, from, to);
    var back := Moved(r, to, from);
    forall i | 0 <= i < |s|
      ensures back[i] == s[i]
    {
      assert back[i] == r[Origin(to, from, i)];
      assert Origin(from, to, Origin(to, from, i)) == i;
    }
  }

  /** A move keeps every duration non-negative when all were before. */
  lemma MovedKeepsDurationSign(s: seq<Activity>, from: int, to: int)
    requires 0 <= from < |s| && 0 <= to < |s|
    ensures (forall i | 0 <= i < |s| :: s[i].duration >= 0) ==>
            (forall i | 0 <= i < |s| :: Moved(s, from, to)[i].duration >= 0)
  {
    var r := Moved(s, from, to);
    if forall i | 0 <= i < |s| :: s[i].duration >= 0 {
      forall i | 0 <= i < |s|
        ensures r[i].duration >= 0
      {
        assert r[i] == s[Origin(from, to, i)];
      }
    }
  }

  // ---- `calculateNewTime`

  /** The cursor walk of `calculateNewTime` over the first `k` entries: each
      advances it by its raw duration (`duration || 1`, not clamped, with no
      check that the window is used up), cut at the window's end. */
  function TentativeFrom(acts: seq<Activity>, k: nat, first: int, last: int): (r: int)
    requires k <= |acts|
    ensures r <= Max(first, last)
    ensures 0 <= first && 0 <= last && (forall i | 0 <= i < k :: acts[i].duration >= 0) ==> 0 <= r
    decreases k
  {
    if k == 0 then first
    else Min(last, TentativeFrom(acts, k - 1, first, last) + OrOne(acts[k - 1].duration))
  }

  /** `calculateNewTime(activities, target)`: never later than 23, and never
      before midnight unless some duration is negative. */
  function TentativeStart(w: Window, acts: seq<Activity>, target: int): (r: int)
    ensures r <= 23
    ensures (forall i | 0 <= i < |acts| :: acts[i].duration >= 0) ==> 0 <= r
  {
    TentativeFrom(acts, Clamp(target, 0, |acts|), FirstHour(w), LastHour(w))
  }

  /** With durations of at most three hours and a window that is not inverted,
      the tentative start is the cursor the schedule itself reaches. */
  lemma {:induction false} TentativeIsCursor(w: Window, acts: seq<Activity>, k: nat)
    requires k <= |acts| && FirstHour(w) <= LastHour(w)
    requires forall i | 0 <= i < k :: 0 <= acts[i].duration <= 3
    ensures TentativeFrom(acts, k, FirstHour(w), LastHour(w)) == Cursor(w, acts, k)
  {
    if k > 0 {
      TentativeIsCursor(w, acts, k - 1);
      CursorBounds(acts, FirstHour(w), LastHour(w), k - 1);
      assert OrOne(acts[k - 1].duration) == SlotLength(acts[k - 1].duration);
    }
  }

  // ---- `moveActivity`

  /** What a move request comes to. */
  datatype MoveOutcome =
    | Ignored   // not the owner, an index out of range, or no move at all
    | Rejected  // the computed start is not an hour of the day ("Cannot Move Activity")
    | Committed(schedule: seq<Activity>, mayBeClosed: bool, pastEnd: bool)

  /** The guards: only the owner, both indices in range, and an actual move. */
  predicate MoveAllowed(isOwner: bool, n: int, from: int, to: int) {
    isOwner && 0 <= from < n && 0 <= to < n && from != to
  }

  /** The state the screen holds after the request. */
  function NextState(current: seq<Activity>, r: MoveOutcome): seq<Activity> {
    if r.Committed? then r.schedule else current
  }

  /** `moveActivity(from, to)` on the list `current`, with the weekday `day` of
      the outing's date. A request the guards refuse changes nothing; an
      allowed one commits the full schedule of the rearranged list, whatever
      the warnings say, unless the tentative start falls before midnight,
      which takes a negative duration. */
  function MoveActivity(w: Window, day: Option<int>, isOwner: bool, current: seq<Activity>, from: int, to: int): (r: MoveOutcome)
    ensures r.Ignored? <==> !MoveAllowed(isOwner, |current|, from, to)
    ensures r.Rejected? ==> TentativeStart(w, Moved(current, from, to), to) < 0
    ensures MoveAllowed(isOwner, |current|, from, to) && TentativeStart(w, Moved(current, from, to), to) < 0 ==>
      r.Rejected?
    ensures MoveAllowed(isOwner, |current|, from, to) && (forall i | 0 <= i < |current| :: current[i].duration >= 0) ==>
      r.Committed?
    ensures r.Committed? ==>
      && |r.schedule| == |current|
      && r.schedule[to].venue == current[from].venue
      && (forall i | 0 <= i < |current| :: r.schedule[i].venue == current[Origin(from, to, i)].venue)
      && r.schedule == CalculateTimes(w, Moved(current, from, to))
  {
    if !MoveAllowed(isOwner, |current|, from, to) then Ignored
    else
      var moving := current[from];
      var arranged := Moved(current, from, to);
      MovedKeepsDurationSign(current, from, to);
      var start := TentativeStart(w, arranged, to);
      var end := start + OrOne(moving.duration);
      if start < 0 || start > 23 then Rejected
      else
        Committed(CalculateTimes(w, arranged),
                  !IsOpenDuring(moving.venue.hours, Some(start), Some(end), day),
                  end > w.endHour)
  }

  // ---- The warnings

  /** The weekday only feeds the business-hours warning: it never decides
      whether a move commits nor what is committed. */
  lemma WarningsAreAdvisory(w: Window, day1: Option<int>, day2: Option<int>, isOwner: bool,
                            current: seq<Activity>, from: int, to: int)
    ensures var r1 := MoveActivity(w, day1, isOwner, current, from, to);
            var r2 := MoveActivity(w, day2, isOwner, current, from, to);
            && r1.Committed? == r2.Committed?
            && NextState(current, r1) == NextState(current, r2)
  {
  }

  /** The venue has usable opening and closing hours. */
  predicate KnownHours(h: Option<Hours>) {
    h.Some? && h.value.open.Some? && h.value.close.Some?
  }

  /** What the two warnings of a committed move mean, whatever the durations:
      the business-hours warning is never raised without a known weekday and
      known hours, and is raised when the venue's listed days leave out the
      weekday; with distinct hours and a moved activity of non-negative
      duration (so its tentative visit is not empty) it is raised exactly when
      no hour of the visit is an opening hour, and with equal hours exactly when
      the visit does not straddle that hour. The window warning is raised
      exactly when the visit would end after the configured end hour. */
  lemma WarningsMeaning(w: Window, day: Option<int>, isOwner: bool, current: seq<Activity>, from: int, to: int)
    ensures var r := MoveActivity(w, day, isOwner, current, from, to);
            r.Committed? ==>
              var start := TentativeStart(w, Moved(current, from, to), to);
              var end := start + OrOne(current[from].duration);
              var h := current[from].venue.hours;
              && (day.None? || !KnownHours(h) ==> !r.mayBeClosed)
              && (day.Some? && KnownHours(h) && DayExcluded(h.value, day.value) ==> r.mayBeClosed)
              && (day.Some? && KnownHours(h) && !DayExcluded(h.value, day.value) &&
                  current[from].duration >= 0 && h.value.open.value != h.value.close.value ==>
                   (r.mayBeClosed <==> !MeetsHours(start, end, h.value.open.value, h.value.close.value)))
              && (day.Some? && KnownHours(h) && !DayExcluded(h.value, day.value) &&
                  h.value.open.value == h.value.close.value ==>
                   (r.mayBeClosed <==> !(start < h.value.open.value < end)))
              && (r.pastEnd <==> end > w.endHour)
  {
    var r := MoveActivity(w, day, isOwner, current, from, to);
    if r.Committed? {
      var arranged := Moved(current, from, to);
      var start := TentativeStart(w, arranged, to);
      var end := start + OrOne(current[from].duration);
      var h := current[from].venue.hours;
      var open := IsOpenDuring(h, Some(start), Some(end), day);
      assert r == Committed(CalculateTimes(w, arranged), !open, end > w.endHour);
      assert current[from].duration >= 0 ==> start < end;
      assert day.None? || !KnownHours(h) ==> !Decisive(h, Some(start), Some(end), day);
      assert day.Some? && KnownHours(h) ==> Decisive(h, Some(start), Some(end), day);
    }
  }

  /** When every duration is between zero and three hours and the window is
      not inverted, an allowed move commits and its warnings speak of the slot
      the moved activity is actually given: its start is the hour the new
      schedule shows for it, or, if the window is used up there, the entry is N/A. */
  lemma WarnedSlotIsCommittedSlot(w: Window, day: Option<int>, current: seq<Activity>, from: int, to: int)
    requires MoveAllowed(true, |current|, from, to)
    requires FirstHour(w) <= LastHour(w)
    requires forall i | 0 <= i < |current| :: 0 <= current[i].duration <= 3
    ensures var r := MoveActivity(w, day, true, current, from, to);
            var start := TentativeStart(w, Moved(current, from, to), to);
            && r.Committed?
            && (start < LastHour(w) ==> Clock.ShowsHour(r.schedule[to].time, start))
            && (start >= LastHour(w) ==> r.schedule[to].time == NotPlaced)
  {
    var arranged := Moved(current, from, to);
    forall i | 0 <= i < |arranged|
      ensures 0 <= arranged[i].duration <= 3
    {
      assert arranged[i] == current[Origin(from, to, i)];
    }
    TentativeIsCursor(w, arranged, to);
    var start := TentativeStart(w, arranged, to);
    assert start == Cursor(w, arranged, to);
    CursorBounds(arranged, FirstHour(w), LastHour(w), to);
    assert 0 <= start <= 23;
    MovedKeepsDurationSign(current, from, to);
    var r := MoveActivity(w, day, true, current, from, to);
    assert r.Committed? && r.schedule == CalculateTimes(w, arranged);
    PlacedAtCursor(w, arranged, to);
    assert r.schedule[to] == Place(arranged[to], start, LastHour(w));
  }

  // ---- Worked cases

  /** In a window from 12 to 13, an activity of -30 hours after a two-hour one
      is left N/A with its raw duration: the schedule the screen then holds
      carries a negative duration. */
  lemma NegativeDurationSchedule(a: Activity, b: Activity)
    requires a.duration == 2 && b.duration == -30
    ensures var s := CalculateTimes(Window(12, 13), [a, b]);
            && |s| == 2 && s[0].duration == 2
            && s[1].duration == -30 && s[1].time == NotPlaced
  {
    assert [a, b][1..] == [b];
  }

  /** The rejection branch is reachable from that schedule: moving the first
      entry behind the N/A one puts the tentative start at 12 - 30 = -18. */
  lemma RejectedMoveExample(a: Activity, b: Activity, day: Option<int>)
    requires a.duration == 2 && b.duration == -30
    ensures var w := Window(12, 13);
            MoveActivity(w, day, true, CalculateTimes(w, [a, b]), 0, 1) == Rejected
  {
    var w := Window(12, 13);
    var s := CalculateTimes(w, [a, b]);
    NegativeDurationSchedule(a, b);
    var arranged := Moved(s, 0, 1);
    assert arranged == [s[1], s[0]];
    assert TentativeFrom(arranged, 1, 12, 13) == -18;
  }

  /** Moving the N/A entry of that schedule to the front instead commits: its
      visit would run from 12 to 12 - 30 = -18, so no window warning. */
  lemma NegativeCommitExample(a: Activity, b: Activity, day: Option<int>)
    requires a.duration == 2 && b.duration == -30
    ensures var w := Window(12, 13);
            var r := MoveActivity(w, day, true, CalculateTimes(w, [a, b]), 1, 0);
            r.Committed? && !r.pastEnd
  {
    var w := Window(12, 13);
    var s := CalculateTimes(w, [a, b]);
    NegativeDurationSchedule(a, b);
    var arranged := Moved(s, 1, 0);
    assert arranged == [s[1], s[0]];
    assert TentativeStart(w, arranged, 0) == 12;
  }

  /** The warnings can speak of a slot the schedule does not use. In a window
      from 12 to 14 a two-hour activity fills the window and an activity of -2
      hours after it is left N/A with its raw duration. Moving the first behind
      it commits with a tentative start of 12 - 2 = 10, the hour the warnings
      are about, while the new schedule gives it 13, after the N/A entry's
      one-hour slot. */
  lemma MisplacedWarningExample(a: Activity, b: Activity, day: Option<int>)
    requires a.duration == 2 && b.duration == -2
    ensures var w := Window(12, 14);
            var s := CalculateTimes(w, [a, b]);
            var r := MoveActivity(w, day, true, s, 0, 1);
            && r.Committed?
            && TentativeStart(w, Moved(s, 0, 1), 1) == 10
            && Clock.ShowsHour(r.schedule[1].time, 13)
  {
    var w := Window(12, 14);
    var s := CalculateTimes(w, [a, b]);
    FilledWindowSchedule(a, b);
    var arranged := Moved(s, 0, 1);
    assert arranged == [s[1], s[0]];
    assert TentativeFrom(arranged, 1, 12, 14) == 10;
    assert FirstHour(w) == 12 && LastHour(w) == 14;
    assert CursorAfter(arranged, 12, 14, 1) == Step(12, s[1], 14) == 13;
    PlacedAtCursor(w, arranged, 1);
  }

  /** In a window from 12 to 14, a two-hour activity fills the window and an
      activity of -2 hours after it is left N/A with its raw duration. */
  lemma FilledWindowSchedule(a: Activity, b: Activity)
    requires a.duration == 2 && b.duration == -2
    ensures var s := CalculateTimes(Window(12, 14), [a, b]);
            && |s| == 2 && s[0].duration == 2
            && s[1].duration == -2 && s[1].time == NotPlaced
  {
    assert [a, b][1..] == [b];
  }

  /** The overflow flag outlives the overflow. In a window from 12 to 13 two
      two-hour activities leave the second N/A and overflow; moving it to the
      front gives it noon, yet its entry still says overflow. The window
      warning is raised, from its unclamped two hours. */
  lemma StaleOverflowExample(a: Activity, b: Activity, day: Option<int>)
    requires a.duration == 2 && b.duration == 2 && !a.overflow && !b.overflow
    ensures var w := Window(12, 13);
            var r := MoveActivity(w, day, true, CalculateTimes(w, [a, b]), 1, 0);
            && r.Committed?
            && r.schedule[0].venue == b.venue
            && r.schedule[0].time == "12:00 PM"
            && r.schedule[0].overflow
            && r.pastEnd
  {
    var w := Window(12, 13);
    var s := CalculateTimes(w, [a, b]);
    OverflowExample(a, b);
    assert s[1].overflow && s[1].duration == 2;
    var arranged := Moved(s, 1, 0);
    assert arranged == [s[1], s[0]];
    assert TentativeStart(w, arranged, 0) == 12;
    assert CalculateTimes(w, arranged)[0] == Place(s[1], 12, 13) by {
      PlacedAtCursor(w, arranged, 0);
    }
    Clock.FormatHourExamples();
  }
}

=== FILE: schedule.dfy ===
/** `calculateTimes` (screens/ItineraryScreen.js): gives each activity of the
    itinerary, in order, a start time inside the owner's window of hours. */
module Schedule {
  import opened Wrappers
  import opened Clock
  import opened OpenHours

  /** What an activity is; every schedule computation carries it over
      unchanged (the object spread `...activity`). */
  datatype Venue = Venue(id: string, name: string, category: string, hours: Option<Hours>)

  /** An itinerary entry: the venue, its duration in hours, the start time
      shown for it and whether it was marked as not fitting the window. */
  datatype Activity = Activity(venue: Venue, duration: int, time: string, overflow: bool)

  /** The owner's window as configured, before clamping. */
  datatype Window = Window(startHour: int, endHour: int)

  /** The time shown for an activity that does not fit the window. */
  const NotPlaced: string := "N/A"

  function Min(a: int, b: int): int {
    if a <= b then a else b
  }

  function Max(a: int, b: int): int {
    if a >= b then a else b
  }

  /** `Math.max(lo, Math.min(hi, x))` */
  function Clamp(x: int, lo: int, hi: int): (r: int)
    requires lo <= hi
    ensures lo <= r <= hi
    ensures lo <= x <= hi ==> r == x
    ensures x < lo ==> r == lo
    ensures x > hi ==> r == hi
  {
    Max(lo, Min(hi, x))
  }

  /** JavaScript's `d || 1` on a number: zero falls back to one. */
  function OrOne(d: int): int {
    if d == 0 then 1 else d
  }

  /** The hours an activity is given: its duration, one by default, kept
      within one to three. */
  function SlotLength(d: int): (r: int)
    ensures 1 <= r <= 3
    ensures 1 <= d <= 3 ==> r == d
    ensures d > 3 ==> r == 3
    ensures d <= 0 ==> r == 1
  {
    Clamp(OrOne(d), 1, 3)
  }

  /** The window's bounds as the scheduler uses them: clamped into the hours of a day. */
  function FirstHour(w: Window): int {
    Clamp(w.startHour, 0, 23)
  }

  function LastHour(w: Window): int {
    Clamp(w.endHour, 0, 23)
  }

  /** One activity at cursor `c`: once the window is used up it is marked
      overflow with time N/A, otherwise it starts at `c` with its slot length. */
  function Place(a: Activity, c: int, last: int): Activity {
    if c >= last then a.(time := NotPlaced, overflow := true)
    else a.(time := FormatHour(Some(c)), duration := SlotLength(a.duration))
  }

  /** The cursor after one activity: unchanged once the window is used up,
      otherwise advanced by the slot length but never past the window's end. */
  function Step(c: int, a: Activity, last: int): int {
    if c >= last then c else Min(last, c + SlotLength(a.duration))
  }

  lemma NotPlacedHasNoMeridiem()
    ensures !HasMeridiem(NotPlaced)
  {
    var u := UpperCase(NotPlaced);
    assert u[0] == 'N' && u[1] == '/' && u[2] == 'A';
    forall i | 0 <= i <= |u| - 2
      ensures !OccursAt(u, "AM", i) && !OccursAt(u, "PM", i)
    {
      assert u[i + 1] != 'M';
    }
  }

  /** The `map` over the activities with the running `currentHour`. Entries keep
      their venue and order; once one is N/A every later one is N/A and marked
      overflow; a placed entry gets a slot of one to three hours and keeps the
      overflow flag it came with. */
  function Walk(acts: seq<Activity>, c: int, last: int): (r: seq<Activity>)
    ensures |r| == |acts|
    ensures forall i | 0 <= i < |r| :: r[i].venue == acts[i].venue
    ensures c >= last ==> forall i | 0 <= i < |r| :: r[i].time == NotPlaced && r[i].overflow
    ensures forall i, j | 0 <= i <= j < |r| :: r[i].time == NotPlaced ==> r[j].time == NotPlaced && r[j].overflow
    ensures forall i | 0 <= i < |r| :: r[i].time == NotPlaced ==> r[i].overflow && r[i].duration == acts[i].duration
    ensures forall i | 0 <= i < |r| :: r[i].time != NotPlaced ==>
      && 1 <= r[i].duration <= 3
      && r[i].duration == SlotLength(acts[i].duration)
      && r[i].overflow == acts[i].overflow
    decreases |acts|
  {
    if |acts| == 0 then []
    else
      NotPlacedHasNoMeridiem();
      [Place(acts[0], c, last)] + Walk(acts[1..], Step(c, acts[0], last), last)
  }

  /** `calculateTimes`: one entry per activity, in the same order and for the
      same venue; an empty window leaves every entry N/A and overflow; after
      the first N/A entry every entry is N/A and overflow. */
  function CalculateTimes(w: Window, acts: seq<Activity>): (r: seq<Activity>)
    ensures |r| == |acts|
    ensures forall i | 0 <= i < |r| :: r[i].venue == acts[i].venue
    ensures FirstHour(w) >= LastHour(w) ==> forall i | 0 <= i < |r| :: r[i].time == NotPlaced && r[i].overflow
    ensures forall i, j | 0 <= i <= j < |r| :: r[i].time == NotPlaced ==> r[j].time == NotPlaced && r[j].overflow
  {
    Walk(acts, FirstHour(w), LastHour(w))
  }

  // ---- The cursor, step by step

  /** The cursor after the first `k` activities, starting from `c`. */
  function CursorAfter(acts: seq<Activity>, c: int, last: int, k: nat): int
    requires k <= |acts|
  {
    if k == 0 then c else Step(CursorAfter(acts, c, last, k - 1), acts[k - 1], last)
  }

  /** The cursor `currentHour` as `calculateTimes` reaches activity `k`. */
  function Cursor(w: Window, acts: seq<Activity>, k: nat): int
    requires k <= |acts|
  {
    CursorAfter(acts, FirstHour(w), LastHour(w), k)
  }

  lemma {:induction false} CursorShift(acts: seq<Activity>, c: int, last: int, k: nat)
    requires k < |acts|
    ensures CursorAfter(acts, c, last, k + 1) == CursorAfter(acts[1..], Step(c, acts[0], last), last, k)
  {
    if k > 0 {
      CursorShift(acts, c, last, k - 1);
      assert acts[1..][k - 1] == acts[k];
    }
  }

  /** Entry `i` of the walk is activity `i` placed at the cursor reached after
      the activities before it. */
  lemma {:induction false} WalkAt(acts: seq<Activity>, c: int, last: int, i: nat)
    requires i < |acts|
    ensures Walk(acts, c, last)[i] == Place(acts[i], CursorAfter(acts, c, last, i), last)
    decreases i
  {
    if i > 0 {
      var c' := Step(c, acts[0], last);
      assert Walk(acts, c, last)[i] == Walk(acts[1..], c', last)[i - 1];
      assert acts[1..][i - 1] == acts[i];
      WalkAt(acts[1..], c', last, i - 1);
      CursorShift(acts, c, last, i - 1);
    }
  }

  /** The cursor starts at the window's start, never decreases, and never passes
      the window's end; with an empty window it never moves. */
  lemma {:induction false} CursorBounds(acts: seq<Activity>, c: int, last: int, k: nat)
    requires k <= |acts|
    ensures c < last ==> c <= CursorAfter(acts, c, last, k) <= last
    ensures c >= last ==> CursorAfter(acts, c, last, k) == c
    ensures k < |acts| ==> CursorAfter(acts, c, last, k) <= CursorAfter(acts, c, last, k + 1)
  {
    if k > 0 {
      CursorBounds(acts, c, last, k - 1);
    }
  }

  /** Sum of the slot lengths of a run of activities. */
  function TotalSlots(acts: seq<Activity>): (n: nat)
    ensures n >= |acts|
    decreases |acts|
  {
    if |acts| == 0 then 0 else TotalSlots(acts[..|acts| - 1]) + SlotLength(acts[|acts| - 1].duration)
  }

  /** The cursor is the window's start plus the slots used so far, cut at the window's end. */
  lemma {:induction false} CursorClosedForm(acts: seq<Activity>, c: int, last: int, k: nat)
    requires k <= |acts| && c <= last
    ensures CursorAfter(acts, c, last, k) == Min(last, c + TotalSlots(acts[..k]))
  {
    if k > 0 {
      CursorClosedForm(acts, c, last, k - 1);
      assert acts[..k][..k - 1] == acts[..k - 1];
    }
  }

  /** Entry `i` of the schedule is activity `i` placed at the cursor. */
  lemma PlacedAtCursor(w: Window, acts: seq<Activity>, i: nat)
    requires i < |acts|
    ensures CalculateTimes(w, acts)[i] == Place(acts[i], Cursor(w, acts, i), LastHour(w))
  {
    WalkAt(acts, FirstHour(w), LastHour(w), i);
  }

  /** The cursor at activity `i` is the window's start plus the slots of the
      activities before it, unless that reaches the window's end. */
  lemma CursorByPrefixSums(w: Window, acts: seq<Activity>, i: nat)
    requires i <= |acts|
    ensures var s := FirstHour(w) + TotalSlots(acts[..i]);
            && (s < LastHour(w) ==> Cursor(w, acts, i) == s)
            && (s >= LastHour(w) ==> Cursor(w, acts, i) >= LastHour(w))
  {
    var first, last := FirstHour(w), LastHour(w);
    if first <= last {
      CursorClosedForm(acts, first, last, i);
    } else {
      CursorBounds(acts, first, last, i);
    }
  }

  /** The schedule by prefix sums: activity `i` starts at the window's start
      plus the slots of the activities before it when that hour is still
      inside the window, and is N/A and overflow otherwise. */
  lemma ScheduleByPrefixSums(w: Window, acts: seq<Activity>, i: nat)
    requires i < |acts|
    ensures var r := CalculateTimes(w, acts);
            var s := FirstHour(w) + TotalSlots(acts[..i]);
            && (s < LastHour(w) ==> ShowsHour(r[i].time, s) && r[i].overflow == acts[i].overflow)
            && (s >= LastHour(w) ==> r[i].time == NotPlaced && r[i].overflow)
  {
    PlacedAtCursor(w, acts, i);
    CursorByPrefixSums(w, acts, i);
    var s := FirstHour(w) + TotalSlots(acts[..i]);
    var e := CalculateTimes(w, acts)[i];
    if s < LastHour(w) {
      assert Cursor(w, acts, i) == s;
      assert e == Place(acts[i], s, LastHour(w));
      assert 0 <= s < 24;
      assert e.time == FormatHour(Some(s));
    } else {
      assert e == Place(acts[i], Cursor(w, acts, i), LastHour(w));
    }
  }

  /** Scheduling an already scheduled itinerary changes nothing. */
  lemma {:induction false} WalkIdempotent(acts: seq<Activity>, c: int, last: int)
    ensures Walk(Walk(acts, c, last), c, last) == Walk(acts, c, last)
    decreases |acts|
  {
    if |acts| > 0 {
      var r := Walk(acts, c, last);
      var a := acts[0];
      assert r[0] == Place(a, c, last);
      assert r[1..] == Walk(acts[1..], Step(c, a, last), last);
      assert Place(r[0], c, last) == r[0];
      assert Step(c, r[0], last) == Step(c, a, last);
      WalkIdempotent(acts[1..], Step(c, a, last), last);
    }
  }

  lemma CalculateTimesIdempotent(w: Window, acts: seq<Activity>)
    ensures CalculateTimes(w, CalculateTimes(w, acts)) == CalculateTimes(w, acts)
  {
    WalkIdempotent(acts, FirstHour(w), LastHour(w));
  }

  /** On a list not yet scheduled (no overflow flags), an entry is marked
      overflow exactly when it shows N/A. */
  lemma FreshOverflowIsNotPlaced(w: Window, acts: seq<Activity>)
    requires forall i | 0 <= i < |acts| :: !acts[i].overflow
    ensures var r := CalculateTimes(w, acts);
            forall i | 0 <= i < |r| :: r[i].overflow <==> r[i].time == NotPlaced
  {
  }

  /** Window 12 to 18 with durations 1, 2, 1: starts at noon, one and three,
      none overflowing. */
  lemma ThreeActivitiesExample(a: Activity, b: Activity, c: Activity)
    requires a.duration == 1 && b.duration == 2 && c.duration == 1
    requires !a.overflow && !b.overflow && !c.overflow
    ensures var r := CalculateTimes(Window(12, 18), [a, b, c]);
            && r[0].time == "12:00 PM" && r[1].time == "1:00 PM" && r[2].time == "3:00 PM"
            && !r[0].overflow && !r[1].overflow && !r[2].overflow
  {
    var w, acts := Window(12, 18), [a, b, c];
    assert FirstHour(w) == 12 && LastHour(w) == 18;
    assert Cursor(w, acts, 0) == 12;
    assert Cursor(w, acts, 1) == 13;
    assert Cursor(w, acts, 2) == 15;
    PlacedAtCursor(w, acts, 0);
    PlacedAtCursor(w, acts, 1);
    PlacedAtCursor(w, acts, 2);
    FormatHourExamples();
  }

  /** Window 12 to 13 with durations 2, 2: the first starts at noon, the
      second does not fit. */
  lemma OverflowExample(a: Activity, b: Activity)
    requires a.duration == 2 && b.duration == 2 && !a.overflow
    ensures var r := CalculateTimes(Window(12, 13), [a, b]);
            && r[0].time == "12:00 PM" && !r[0].overflow
            && r[1].time == NotPlaced && r[1].overflow
  {
    assert FirstHour(Window(12, 13)) == 12 && LastHour(Window(12, 13)) == 13;
    assert Walk([a, b], 12, 13) == [Place(a, 12, 13)] + Walk([b], 13, 13) by {
      assert [a, b][1..] == [b];
    }
    FormatHourExamples();
  }
}

=== FILE: time_string.dfy ===
/** `convertTimeTo12Hour` (screens/ItineraryScreen.js): normalises a backend
    time string to the 12-hour form. */
module TimeString {
  import opened Wrappers
  import opened Decimal
  import opened Clock

  /** A match of `^(\d{1,2}):(\d{2})(?::\d{2})?$`: the hour group, the minute
      group and the optional seconds. */
  datatype MilitaryTime = MilitaryTime(hourDigits: string, minuteDigits: string, secondDigits: Option<string>)

  /** The shape the pattern admits. */
  predicate WellFormed(t: MilitaryTime) {
    && AllDigits(t.hourDigits) && 1 <= |t.hourDigits| <= 2
    && AllDigits(t.minuteDigits) && |t.minuteDigits| == 2
    && (t.secondDigits.Some? ==> AllDigits(t.secondDigits.value) && |t.secondDigits.value| == 2)
  }

  /** The text a military time is written as. */
  function Spell(t: MilitaryTime): string {
    t.hourDigits + ":" + t.minuteDigits + (match t.secondDigits case None => "" case Some(sec) => ":" + sec)
  }

  /** The pattern match. The hour takes two digits when the second character is
      a digit and one when it is the colon; a digit string cannot be both, so
      the greedy match never has to backtrack. */
  function MatchMilitary(s: string): (r: Option<MilitaryTime>)
    ensures r.Some? ==> WellFormed(r.value) && Spell(r.value) == s
  {
    if |s| >= 3 && IsDigit(s[0]) && IsDigit(s[1]) && s[2] == ':' then MatchAfterHour(s, 2)
    else if |s| >= 2 && IsDigit(s[0]) && s[1] == ':' then MatchAfterHour(s, 1)
    else None
  }

  /** The rest of the pattern once the hour group `s[..k]` and its colon are matched. */
  function MatchAfterHour(s: string, k: nat): (r: Option<MilitaryTime>)
    requires 1 <= k <= 2 && k < |s| && AllDigits(s[..k]) && s[k] == ':'
    ensures r.Some? ==> WellFormed(r.value) && Spell(r.value) == s && r.value.hourDigits == s[..k]
  {
    if |s| < k + 3 || !AllDigits(s[k + 1..k + 3]) then None
    else
      var rest := s[k + 3..];
      if rest == "" then
        assert s == s[..k] + ":" + s[k + 1..k + 3];
        Some(MilitaryTime(s[..k], s[k + 1..k + 3], None))
      else if |rest| == 3 && rest[0] == ':' && AllDigits(rest[1..]) then
        assert s == s[..k] + ":" + s[k + 1..k + 3] + (":" + rest[1..]);
        Some(MilitaryTime(s[..k], s[k + 1..k + 3], Some(rest[1..])))
      else None
  }

  /** Every string of the pattern's shape is matched, with its own groups. */
  lemma MatchSpell(t: MilitaryTime)
    requires WellFormed(t)
    ensures MatchMilitary(Spell(t)) == Some(t)
  {
    var s := Spell(t);
    var k := |t.hourDigits|;
    assert s[..k] == t.hourDigits;
    assert s[k] == ':';
    assert s[k + 1..k + 3] == t.minuteDigits;
    if k == 2 {
      assert IsDigit(s[0]) && IsDigit(s[1]);
    } else {
      assert IsDigit(s[0]);
    }
    match t.secondDigits
    case None =>
      assert s[k + 3..] == "";
    case Some(sec) =>
      assert s[k + 3..] == ":" + sec;
      assert s[k + 3..][1..] == sec;
  }

  /** A military time carries no AM/PM marker. */
  lemma SpellHasNoMeridiem(t: MilitaryTime)
    requires WellFormed(t)
    ensures !HasMeridiem(Spell(t))
  {
    var s := Spell(t);
    var k := |t.hourDigits|;
    forall i | 0 <= i < |s|
      ensures IsDigit(s[i]) || s[i] == ':'
    {
      if i < k {
        assert s[i] == t.hourDigits[i];
      } else if k < i < k + 3 {
        assert s[i] == t.minuteDigits[i - k - 1];
      } else if i > k + 3 {
        assert s[i] == t.secondDigits.value[i - k - 4];
      }
    }
    var u := UpperCase(s);
    forall i | 0 <= i <= |u| - 2
      ensures !OccursAt(u, "AM", i) && !OccursAt(u, "PM", i)
    {
      assert u[i] == Upper(s[i]);
    }
  }

  /** `convertTimeTo12Hour`: a missing, non-string or empty time gives the
      default; a string that already carries AM/PM is kept as it is; a military
      time with an hour of the day becomes its 12-hour reading with the minutes
      copied and the seconds dropped; anything else gives the default. */
  function ConvertTimeTo12Hour(raw: Option<string>): (r: string)
    ensures HasMeridiem(r)
    ensures raw.None? ==> r == DefaultTime
    ensures raw.Some? && HasMeridiem(raw.value) ==> r == raw.value
    ensures raw.Some? && !HasMeridiem(raw.value) && MatchMilitary(raw.value).None? ==> r == DefaultTime
    ensures raw.Some? && !HasMeridiem(raw.value) && MatchMilitary(raw.value).Some? ==>
      var t := MatchMilitary(raw.value).value;
      var h := Value(t.hourDigits);
      (h <= 23 ==> ShowsTime(r, h, t.minuteDigits)) && (h > 23 ==> r == DefaultTime)
  {
    DefaultHasMeridiem();
    match raw
    case None => DefaultTime
    case Some(s) =>
      if s == "" then DefaultTime
      else if HasMeridiem(s) then s
      else
        match MatchMilitary(s)
        case None => DefaultTime
        case Some(t) =>
          var hour := Value(t.hourDigits);
          if hour <= 23 then
            var c := HourOnClock(hour).(minutes := t.minuteDigits);
            HourOnClockRoundTrip(hour);
            ReadRender(c);
            RenderHasMeridiem(c);
            Render(c)
          else DefaultTime
  }

  /** The conversion of a military time, stated over its written form. */
  lemma ConvertMilitary(t: MilitaryTime)
    requires WellFormed(t)
    ensures var r := ConvertTimeTo12Hour(Some(Spell(t)));
            var h := Value(t.hourDigits);
            && (h <= 23 ==> ShowsTime(r, h, t.minuteDigits) && ReadClock(r).value.meridiem == (if h >= 12 then PM else AM))
            && (h > 23 ==> r == DefaultTime)
  {
    MatchSpell(t);
    SpellHasNoMeridiem(t);
    var h := Value(t.hourDigits);
    if h <= 23 {
      var c := HourOnClock(h).(minutes := t.minuteDigits);
      HourOnClockRoundTrip(h);
      ReadRender(c);
    }
  }

  /** Normalising twice is normalising once. */
  lemma ConvertIdempotent(raw: Option<string>)
    ensures ConvertTimeTo12Hour(Some(ConvertTimeTo12Hour(raw))) == ConvertTimeTo12Hour(raw)
  {
  }

  /** A time already in 12-hour form is kept, letter case included. */
  lemma ConvertKeepsExample()
    ensures ConvertTimeTo12Hour(Some("9:30 pm")) == "9:30 pm"
  {
    assert OccursAt(UpperCase("9:30 pm"), "PM", 5);
  }

  /** An hour past 23 falls back to the default. */
  lemma ConvertLateHourExample()
    ensures ConvertTimeTo12Hour(Some("24:00")) == DefaultTime
  {
    var late := MilitaryTime("24", "00", None);
    assert Spell(late) == "24:00";
    assert Value("24") == 24 by {
      assert "24"[..1] == "2";
    }
    ConvertMilitary(late);
  }

  /** Empty or unrecognised text falls back to the default. */
  lemma ConvertDefaultExamples()
    ensures ConvertTimeTo12Hour(Some("")) == DefaultTime
    ensures ConvertTimeTo12Hour(Some("noon")) == DefaultTime
  {
    var u := UpperCase("noon");
    forall i | 0 <= i <= |u| - 2
      ensures !OccursAt(u, "AM", i) && !OccursAt(u, "PM", i)
    {
      assert u[i] == Upper("noon"[i]);
    }
  }
}

=== FILE: wrappers.dfy ===
/** Optional values: a JavaScript `undefined` or `null` becomes `None`. */
module Wrappers {

  datatype Option<+T> = None | Some(value: T)
}
